=== FILE: README.md ===
# Hairstyle catalog and transform guard

A Dafny model of the state machine behind the "LA VIE ENR HAIR AI" try-on page
(`js/app.js`). The page keeps a catalog of reference hairstyles: a list of genders, a list of
categories per gender, and for each (gender, category) a list of styles `{id, name, image,
prompt}` stored under the text key `gender + "-" + category`. An administrator edits the catalog
in a modal dialog that works on a deep copy (`pendingData`). The copy replaces the live catalog
(`data`) only when the administrator saves. The user uploads a photo, picks a style, and starts
a transform. The transform button is enabled when a photo and a style are present; the
transform handler checks the same and also refuses to start while a transform is running.

Every operation is a pure function over immutable values:

- `CatalogStore` (`catalog.dfy`) holds the catalog datatypes and the six admin edits. These are
  `AddGender`, `DeleteGender`, `AddCategory`, `DeleteCategory`, `UploadStyles` and `DeleteStyle`.
  The module also holds the style key and the automatic style names.
- `CatalogInvariants` (`catalog_invariants.dfy`) defines `Valid`. In a valid catalog each gender
  is listed once and exactly the listed genders own a category list. Categories are listed once
  per gender. Every style list sits under the key of a listed pair. Style ids are unique across
  the catalog. One lemma per edit proves that `Valid` is kept.
- `CatalogProperties` (`catalog_properties.dfy`) holds lemmas that relate edits: idempotent
  adds, the delete cascades, numbering and the ambiguity of the style key.
- `Storage` (`storage.dfy`) holds the stored JSON form of the catalog, `loadData` with its shape
  check and fallback to `DEFAULT_DATA`, and the proof that the stored form loses nothing.
- `App` (`app.dfy`) holds the application state record, `initApp`, `getNextStyleNumber`, and
  the edit session: open, edit, close and save.
- `Selection` (`selection.dfy`) holds the photo, the selected style, the transform button and
  `handleTransform`.
- `Decimal` (`decimal.dfy`) and `JsString` (`jsstring.dfy`) provide the JavaScript behaviour the
  model relies on. `Decimal` prints a natural number in plain decimal digits, as a template literal
  does for the integers a style list can number, and proves that reading the digits back gives
  the number. `JsString` provides `String.prototype.trim`, with
  ECMAScript's whitespace set, and `startsWith`.

Browser dialogs become arguments:

- The `prompt` answer is an `Option<string>`, with None for a cancelled dialog.
- The `confirm` answer is a boolean.
- Each uploaded file is an `Upload(id, image)`. The id is the one the source builds from
  `Date.now()` and `Math.random()`. The image is what `FileReader` returns.
- `localStorage` and `JSON.parse` become the stored text and its parsed value.
- A transform's outcome is an `Outcome` value.

Some of the source's behaviour is easy to miss, and the model keeps it as written:

- `deleteGender` removes every style key that starts with `gender + "-"`. This also drops the
  styles of another gender whose name starts that way (`DeleteGenderReachesOtherGender`).
- The style key does not identify its pair. ("a-b", "c") and ("a", "b-c") share the key "a-b-c"
  (`StyleKeyAmbiguous`).
- `loadData` checks only that three fields are truthy, so a value that is not a catalog can pass
  (`ShapeCheckIsShallow`).
- Saving keeps the selected style even when the saved catalog no longer holds it
  (`SaveKeepsStaleSelection`).

Some behaviours are easy to assume otherwise. The model follows the code:

- Accepting a new photo does not clear an earlier result.
- A refused name changes nothing and returns no error value. `addGender` returns silently on a
  cancelled or blank answer and alerts only on a duplicate; `addCategory` alerts on a missing
  gender, a blank name and a duplicate.
- `addCategory` checks only that a gender was chosen, not that the gender exists. It creates the
  category list when it is missing.
- Uploading to a (gender, category) without a style list creates the list.
- Styles are deleted by position, not by id.
- There is no separate "ready" or "completed" state, only the `isProcessing` flag.
- `getNextStyleNumber` counts the live catalog's list and nothing calls it. Uploads count the
  list in the session's copy (`SessionUploadNotCounted`).
- Adding a gender resets the style tab's gender select to the first gender but leaves its
  category select as it was. An upload can then target a pair whose category belongs to another
  gender and create a style list no listed category owns (`UploadToUnlistedPairBreaksValid`).

Some source paths have no defined behaviour:

- Without an open session, every admin edit throws on the missing copy or returns early (a
  cancelled or blank answer, an unconfirmed delete, an empty file list) before it writes anything.
  `AdminEdit` models this as no change.
- Saving without an open session would make the live catalog `null`. The save button only exists
  inside the open dialog, so `SaveAdminChanges` requires an open session.
- `deleteCategory` on a gender that has no category list throws before it writes anything, so
  the model leaves the catalog unchanged.

## Model

| member | source | states |
|---|---|---|
| `Decimal.ParseNatToString` | js/app.js:884 | reading back the decimal text that numbers a style name gives the position back, so the text is an exact rendering of the number |
| `Decimal.NatToStringInjective` | js/app.js:856 | different positions print as different numbers |
| `JsString.Trim` | js/app.js:632-634 | the trimmed name is what lies between the leading and the trailing whitespace of the typed text, has no whitespace at either end, and is empty exactly when the text is blank |
| `JsString.TrimUnique` | js/app.js:716 | any cut of the text with only whitespace removed on each side and none left at the ends equals the trimmed text |
| `JsString.TrimIdempotent` | js/app.js:634 | trimming an already trimmed name changes nothing |
| `CatalogStore.Without` | js/app.js:653 | filtering a name out removes every occurrence of it and keeps every other name with its multiplicity |
| `CatalogStore.WithoutAppend` | js/app.js:747-748 | filtering commutes with concatenation, so the survivors keep their order |
| `JsString.StartsWith` | js/app.js:660 | a key starts with the prefix exactly when it is the prefix followed by the rest of the key, character by character |
| `JsString.StartsWithConcat` | js/app.js:660 | any prefix followed by any rest starts with that prefix, so every style key of a gender passes the cascade's test |
| `CatalogStore.RemoveAt` | js/app.js:880 | `splice(index, 1)` keeps the entries before the index, shifts the later ones down by one, and removes exactly the one entry at the index |
| `CatalogStore.Renumber` | js/app.js:883-885 | every entry keeps its id, image and prompt and takes the name of its 1-based position; a list already numbered that way is left unchanged |
| `CatalogStore.StyleKey` | js/app.js:78-80 | the key of (gender, category) starts with the gender followed by "-" |
| `CatalogStore.AddGender` | js/app.js:630-642 | a cancelled, blank or already present name leaves the catalog unchanged; otherwise the trimmed name is appended to the genders and given an empty category list, and the other category lists and all styles are kept |
| `CatalogStore.DeleteGender` | js/app.js:649-663 | without confirmation nothing changes; with it every occurrence of the gender is filtered out, its category list is removed, and exactly the style keys starting with gender + "-" disappear while the other lists are kept |
| `CatalogStore.AddCategory` | js/app.js:710-737 | no gender, a blank name or a name already under the gender leaves the catalog unchanged; otherwise the trimmed name is appended to the gender's list, which is created when missing, and nothing else changes |
| `CatalogStore.DeleteCategory` | js/app.js:744-752 | with confirmation, the category is filtered out of the gender's list and exactly the style list under its key is dropped; without it nothing changes |
| `CatalogStore.NewStyles` | js/app.js:850-865 | the i-th uploaded file becomes a style with the file's id and image, named after position count + i + 1 and prompted "<name> hairstyle, <category> style" |
| `CatalogStore.UploadStyles` | js/app.js:825-865 | no files, or no gender or category, changes nothing; otherwise the list of the pair keeps its old entries as a prefix and gains one style per file, numbered on from the old length, while every other list is kept |
| `CatalogStore.DeleteStyle` | js/app.js:874-885 | a missing list or an index outside it changes nothing; otherwise the list loses exactly the entry at the index, each remaining entry keeps its id, image and prompt and is named after its new 1-based position, and every other list is kept |
| `CatalogInvariants.AddGenderValid` | js/app.js:636-642 | adding a gender keeps the catalog valid |
| `CatalogInvariants.DeleteGenderValid` | js/app.js:653-663 | deleting a gender keeps the catalog valid: no style list is left without a listed owner |
| `CatalogInvariants.AddCategoryValid` | js/app.js:728-737 | adding a category under a listed gender, or with no gender chosen, keeps the catalog valid |
| `CatalogInvariants.DeleteCategoryValid` | js/app.js:747-752 | deleting a category keeps the catalog valid |
| `CatalogInvariants.UploadStylesValid` | js/app.js:841-865 | uploading to a listed pair with freshly generated ids keeps the catalog valid, including globally unique style ids |
| `CatalogInvariants.UploadToUnlistedPairBreaksValid` | js/app.js:644-646 | with "f"/"bob" chosen in the style tab, adding gender "x" gives a valid catalog, and the upload the stale select then sends to ("m", "bob") turns it into one with an unowned style list |
| `CatalogInvariants.DeleteStyleValid` | js/app.js:878-885 | deleting a style keeps the catalog valid; the remaining ids are a subset of the old ones |
| `CatalogInvariants.IdsOfAppend` | js/app.js:865 | the ids of an extended list are the old ids together with the appended ones |
| `CatalogInvariants.NewStylesIds` | js/app.js:859 | the new styles carry exactly the ids supplied with the files |
| `CatalogProperties.AddGenderTwice` | js/app.js:636-639 | adding the same name twice is the same as adding it once |
| `CatalogProperties.AddGenderNoDuplicates` | js/app.js:636-641 | adding a gender never lists a name twice |
| `CatalogProperties.AddCategoryTwice` | js/app.js:732-735 | adding the same category twice under one gender is the same as adding it once |
| `CatalogProperties.DeleteGenderCascades` | js/app.js:653-663 | after a gender is deleted, neither the gender, its category list nor any of its style lists can be found |
| `CatalogProperties.DeleteGenderReachesOtherGender` | js/app.js:659-663 | deleting gender "a" also drops the styles of gender "a-b", category "c", while "a-b" and its category stay listed |
| `CatalogProperties.StyleKeyAmbiguous` | js/app.js:78-80 | the pairs (g-h, c) and (g, h-c) share one style key |
| `CatalogProperties.DeleteCategoryKeepsOtherStyles` | js/app.js:751-752 | deleting a category drops its own style list and no list under a different key |
| `CatalogProperties.UploadKeepsNumbering` | js/app.js:848-856 | uploading to a list whose names follow their positions keeps every name following its position |
| `CatalogProperties.UploadUsesNextNumber` | js/app.js:848-856 | the first uploaded style is named after the position one past the edited list's length, and the list grows by the number of files |
| `CatalogProperties.DeleteStyleLowersNextNumber` | js/app.js:874-880 | deleting a style shortens the edited list by one, so the next upload to it is numbered one lower |
| `CatalogProperties.DeleteLastKeepsOthers` | js/app.js:880-885 | deleting the last entry of a correctly numbered list leaves the other entries exactly as they were |
| `CatalogProperties.DeleteOnlyThenUpload` | js/app.js:853-885 | deleting a category's only style and uploading one file gives a single style numbered 1 with the new id |
| `CatalogStore.StylesOf` | js/app.js:85 | the styles of a pair are the list stored under its key when the key is present, and none when it is missing (the empty-list fallback, as also at line 355) |
| `CatalogStore.CategoriesOf` | js/app.js:100 | the categories of a gender are its stored list when present, and none when missing (the empty-list fallback, as also at line 898) |
| `CatalogProperties.StyleNameParts` | js/app.js:856 | an automatic style name (also the renaming at line 884) is "<gender> <category> " followed by a non-empty run of decimal digits that reads back as the position |
| `CatalogProperties.DefaultPromptParts` | js/app.js:862 | an uploaded style's prompt is non-empty, starts with "<name> hairstyle, " and ends with "<category> style" |
| `CatalogProperties.StyleNamesDistinct` | js/app.js:856 | different positions give different style names |
| `Storage.Field` | js/app.js:57 | reading a field gives a value exactly when the parsed value is an object with that field |
| `Storage.HasCatalogShape` | js/app.js:57 | the check passes exactly when the value is an object whose own genders, categories and styles fields are all truthy |
| `Storage.LoadData` | js/app.js:51-65 | the loaded value always passes the shape check; the parsed value is returned exactly when text was stored, it parsed, and its genders, categories and styles are truthy, and otherwise the default catalog is returned |
| `Storage.Encode` | js/app.js:69 | the stored form is an object with exactly the genders, categories and styles fields, one categories entry per gender with a list and one styles entry per style key |
| `Storage.EncodeHasShape` | js/app.js:67-69 | the stored form of any catalog passes the shape check |
| `Storage.LoadSaved` | js/app.js:51-69 | loading what was saved returns it unchanged |
| `Storage.LoadIdempotent` | js/app.js:51-65 | storing a loaded value and loading again gives the same value |
| `Storage.LoadFallsBackToDefault` | js/app.js:20-29 | with nothing stored or unparsable text, the load decodes to the default catalog |
| `Storage.DefaultDataValid` | js/app.js:20-29 | the default catalog `DEFAULT_DATA` (`Storage.DefaultData`: two genders, each with the same three categories, and no styles) is valid |
| `Storage.ShapeCheckIsShallow` | js/app.js:57-58 | a value whose genders field is the number 1 is kept by the load although it decodes to no catalog |
| `Storage.DecodeEncode` | js/app.js:69 | decoding the stored form of a catalog gives the catalog back |
| `Storage.DecodeEncodeStrings` | js/app.js:69 | decoding the stored form of a list of names gives the list back |
| `Storage.DecodeEncodeStyles` | js/app.js:69 | decoding the stored form of a style list gives the list back |
| `App.Start` | js/app.js:94-104 | the first gender and its first category become current when present, with nothing selected and no session open |
| `App.GetNextStyleNumber` | js/app.js:83-87 | the number is one past the length of the live catalog's list for the pair, and it is 1 exactly when the live catalog has no style for the pair |
| `App.ApplyValid` | js/app.js:630-885 | every admin edit keeps a valid catalog valid, provided a new category goes under a listed gender or no gender and an upload targets a listed pair with fresh ids |
| `App.ApplyAllValid` | js/app.js:630-885 | any sequence of edits meeting that premise keeps a valid catalog valid |
| `App.OpenAdmin` | js/app.js:574-576 | opening the dialog puts a copy of the live catalog in the session and changes nothing else |
| `App.CloseAdmin` | js/app.js:590-594 | closing the dialog drops the copy and changes nothing else |
| `App.AdminEdit` | js/app.js:630-885 | an admin edit never changes the live catalog; it applies the edit to the copy, or does nothing when no session is open |
| `App.SaveAdminChanges` | js/app.js:891-903 | saving makes the copy live and ends the session; the first gender becomes current and so does its first non-empty category, or none; the photo, selection, result and processing flag are kept |
| `App.EditsStayInCopy` | js/app.js:574-576 | during a session the copy holds the edits applied in order and nothing else changes |
| `App.AbandonedSessionChangesNothing` | js/app.js:590-594 | a session closed without saving leaves the state exactly as before it was opened |
| `App.SavedSessionCommits` | js/app.js:891-892 | a saved session makes the live catalog the old catalog with the session's edits applied |
| `App.SavedSessionValid` | js/app.js:891-892 | saving a session whose uploads target listed pairs with fresh ids and whose new categories go under listed genders or no gender keeps a valid live catalog valid |
| `App.SessionUploadNotCounted` | js/app.js:85 | an upload during a session grows the copy's list by the number of files while `getNextStyleNumber`, which reads the live catalog, stays where it was |
| `Selection.HasPhoto` | js/app.js:399 | a photo is present exactly when the photo value, `null` or a data URL, is truthy |
| `Selection.HasStyle` | js/app.js:400 | a style is present exactly when the selection value, `null` or a style object, is truthy |
| `Selection.TransformButton` | js/app.js:395-413 | the button is enabled exactly when a photo and a style are present, and the status names what is missing |
| `Selection.ProcessMyPhoto` | js/app.js:212-229 | a file over 10 MiB leaves the state unchanged; otherwise it becomes the photo and nothing else changes |
| `Selection.RemoveMyPhoto` | js/app.js:231-237 | no photo remains and nothing else changes |
| `Selection.SelectStyle` | js/app.js:240-255 | the chosen style is the selection and nothing else changes |
| `Selection.RemoveSelectedStyle` | js/app.js:257-266 | no style remains selected and nothing else changes |
| `Selection.CustomStyle` | js/app.js:269-289 | an uploaded reference image is selected as a "custom" style with a non-empty prompt |
| `Selection.FindById` | js/app.js:382 | the found style is the first entry with the id, and none is found exactly when no entry has it |
| `Selection.PickFromGrid` | js/app.js:343-391 | without a current gender and category, or with no style of the clicked id in their list, nothing changes; otherwise the first style with that id in the list becomes the selection, tagged with the current gender and category, and nothing else changes |
| `Selection.TransformRequest` | js/app.js:445-450 | the request carries the photo and the style's image and name, with the style's prompt or "<name> hairstyle" when it has none |
| `Selection.BeginTransform` | js/app.js:416-419 | a transform starts exactly when none is running and a photo and a style are present, and starting only raises the processing flag |
| `Selection.FinishTransform` | js/app.js:422-435 | the processing flag is lowered in every case, a delivered non-empty image becomes the result, and otherwise the previous result stays |
| `Selection.HandleTransform` | js/app.js:416-436 | a refused transform changes nothing; a started one always ends with the processing flag lowered |
| `Selection.ButtonMatchesGuard` | js/app.js:399-417 | when no transform runs, the button is enabled exactly when a click would start one |
| `Selection.SecondTransformRefused` | js/app.js:417-419 | while a transform runs, a second one is refused with no change |
| `Selection.TransformKeepsInputs` | js/app.js:416-436 | a transform keeps the photo, the selection and the catalog; a delivered image becomes the result and a failure keeps the previous one |
| `Selection.PhotoLimitBoundary` | js/app.js:213-216 | exactly 10 MiB is accepted and one byte more is refused with no change |
| `Selection.SelectReplaces` | js/app.js:240-241 | selecting twice keeps only the second choice |
| `Selection.EmptyCatalogNoPick` | js/app.js:348-352 | after saving a catalog with no genders, no catalog style can be picked |
| `Selection.SaveKeepsStaleSelection` | js/app.js:891-903 | saving never changes whether the transform button is enabled, even when the selected style was deleted |

## Left out

- `netlify/functions/transform.js`, the serverless proxy, is not part of this model. It only
  forwards requests to external image services over HTTP and polls them.
- `callTransformAPI` is left out, except the request body it sends (`TransformRequest`). This
  covers the `fetch` call, the demo result on localhost, the progress bar and its delays. The transform's result arrives as an `Outcome` argument.
- DOM rendering is left out because it is presentation only. This covers the `render*` and
  `update*Select` functions, the tab click handlers, drag and drop with its `image/` type
  check, the comparison slider, `showResult`, `showLoading`, download, share and
  `retryTransform`.
- The failure `alert` in `handleTransform` is left out. A failed outcome's message is shown to
  the user and never stored in the state.
- `saveData` is left out because it is browser I/O. This covers writing to `localStorage` and
  the alert when the storage quota is exceeded. `Storage.Encode` is the value it writes.
- `JSON.stringify` and `JSON.parse` are treated as exact inverses on JSON values. Parsing text
  is not modelled: a load receives the parsed value.
- JSON numbers are integers in the model. The catalog never stores a number.
- A value that passes the shape check but is not a well-formed catalog (see
  `ShapeCheckIsShallow`) has no typed model. Only values that `Storage.Decode` accepts become a
  `Catalog`.
- Strings are sequences of Unicode scalar values. JavaScript strings are sequences of UTF-16
  code units. The two differ only for characters outside the Basic Multilingual Plane.
- `UploadStyles`: `FileReader` finishes each file asynchronously. The model applies all files as
  one step, in the order their reads complete. If another edit ran between two reads, the source
  would keep counting from its stale count. The model does not cover that interleaving.
- `PickFromGrid` looks styles up in the current catalog. The source uses the list captured when
  the grid was drawn. The two agree because every catalog change redraws the grid.
- ApplyValid: assumes that every upload targets a listed (gender, category) pair. The source
  does not guarantee it: after `addGender` the style tab's category select is not refreshed, so
  an upload can create a style list no listed category owns (`UploadToUnlistedPairBreaksValid`).
  The screens' select state is not modelled.
- ApplyAllValid: assumes the same listed-pair premise for every upload in the sequence, for the
  same reason.
- SavedSessionValid: assumes the same listed-pair premise for the session's uploads, for the
  same reason.
- The catalog's maps are plain JavaScript objects in the source. A gender named `__proto__`
  sets the object's prototype instead of adding a key, `JSON.stringify` then drops it, and
  `delete` removes nothing. The model's maps treat every name as an ordinary key, so `Encode`,
  `DecodeEncode` and `OpenAdmin` are exact copies for such names where the source loses them.
- Numbers in style names are printed in plain decimal digits. JavaScript switches to exponent
  notation from 10^21 and loses integer precision above 2^53. No style list comes near either
  size.
- Ids generated from `Date.now()` and `Math.random()` are given as arguments. Whether they are
  fresh is the `FreshIds` premise of `UploadStylesValid`.

=== FILE: app.dfy ===
/** The application state and the administrator's edit session.

    Edits are made to a private copy of the catalog (`pendingData`), opened from the live
    catalog, and only saving makes the copy live; closing the session drops it. */
module App {
  import opened Optional
  import opened CatalogStore
  import opened CatalogInvariants

  /** What `selectStyle` stores: a style together with the gender and category it was
      picked under ("custom" for an uploaded reference image). */
  datatype Selected = Selected(style: Style, gender: string, category: string)

  datatype State = State(
    myPhoto: Option<string>,
    selectedStyle: Option<Selected>,
    resultImage: Option<string>,
    data: Catalog,
    currentGender: Option<string>,
    currentCategory: Option<string>,
    isProcessing: bool,
    pendingData: Option<Catalog>)

  /** The state after `initApp`, over the loaded catalog: the first gender and that
      gender's first category become current, when there are any. */
  function Start(data: Catalog): (s: State)
    ensures s.data == data && s.pendingData.None? && !s.isProcessing
    ensures s.myPhoto.None? && s.selectedStyle.None? && s.resultImage.None?
    ensures s.currentGender.Some? <==> |data.genders| > 0
    ensures s.currentGender.Some? ==> s.currentGender.value == data.genders[0]
    ensures s.currentCategory.Some? <==> |data.genders| > 0 && |CategoriesOf(data, data.genders[0])| > 0
    ensures s.currentCategory.Some? ==> s.currentCategory.value == CategoriesOf(data, data.genders[0])[0]
  {
    var gender := if |data.genders| > 0 then Some(data.genders[0]) else None;
    var category :=
      if gender.Some? && |CategoriesOf(data, gender.value)| > 0 then Some(CategoriesOf(data, gender.value)[0])
      else None;
    State(None, None, None, data, gender, category, false, None)
  }

  /** One administrator action on the catalog being edited. */
  datatype Edit =
    | NewGender(typed: Option<string>)
    | DropGender(gender: string, confirmed: bool)
    | NewCategory(gender: string, typedCategory: string)
    | DropCategory(gender: string, category: string, confirmed: bool)
    | AddStyles(gender: string, category: string, files: seq<Upload>)
    | DropStyle(gender: string, category: string, index: int)

  function Apply(cat: Catalog, e: Edit): Catalog {
    match e
    case NewGender(typed) => AddGender(cat, typed)
    case DropGender(g, confirmed) => DeleteGender(cat, g, confirmed)
    case NewCategory(g, typed) => AddCategory(cat, g, typed)
    case DropCategory(g, c, confirmed) => DeleteCategory(cat, g, c, confirmed)
    case AddStyles(g, c, files) => UploadStyles(cat, g, c, files)
    case DropStyle(g, c, index) => DeleteStyle(cat, g, c, index)
  }

  /** The edits applied one after another. */
  function ApplyAll(cat: Catalog, es: seq<Edit>): Catalog
    decreases |es|
  {
    if es == [] then cat else ApplyAll(Apply(cat, es[0]), es[1..])
  }

  /** The premise of the validity results: a new category goes under a listed gender or under
      no gender at all (the empty option, which adds nothing), and an upload targets a listed
      (gender, category) pair with freshly generated ids. The screens do not always meet the
      upload half: after a gender is added, the style tab's category select can still show a
      category of another gender (`UploadToUnlistedPairBreaksValid`). */
  ghost predicate Allowed(cat: Catalog, e: Edit) {
    match e
    case NewGender(_) => true
    case DropGender(_, _) => true
    case NewCategory(g, _) => g == "" || g in cat.genders
    case DropCategory(_, _, _) => true
    case AddStyles(g, c, files) => g in cat.categories && c in cat.categories[g] && FreshIds(cat, files)
    case DropStyle(_, _, _) => true
  }

  ghost predicate AllAllowed(cat: Catalog, es: seq<Edit>)
    decreases |es|
  {
    es == [] || (Allowed(cat, es[0]) && AllAllowed(Apply(cat, es[0]), es[1..]))
  }

  /** Every edit meeting `Allowed` keeps a valid catalog valid. */
  lemma ApplyValid(cat: Catalog, e: Edit)
    requires Valid(cat) && Allowed(cat, e)
    ensures Valid(Apply(cat, e))
  {
    match e
    case NewGender(typed) => AddGenderValid(cat, typed);
    case DropGender(g, confirmed) => DeleteGenderValid(cat, g, confirmed);
    case NewCategory(g, typed) => AddCategoryValid(cat, g, typed);
    case DropCategory(g, c, confirmed) => DeleteCategoryValid(cat, g, c, confirmed);
    case AddStyles(g, c, files) => UploadStylesValid(cat, g, c, files);
    case DropStyle(g, c, index) => DeleteStyleValid(cat, g, c, index);
  }

  lemma {:induction false} ApplyAllValid(cat: Catalog, es: seq<Edit>)
    requires Valid(cat) && AllAllowed(cat, es)
    ensures Valid(ApplyAll(cat, es))
    decreases |es|
  {
    if es != [] {
      ApplyValid(cat, es[0]);
      ApplyAllValid(Apply(cat, es[0]), es[1..]);
    }
  }

  /** `getNextStyleNumber`: one past the length of the LIVE catalog's list for the pair,
      whatever the session's copy holds. Nothing calls it: uploads count the copy instead. */
  function GetNextStyleNumber(s: State, gender: string, category: string): (n: nat)
    ensures n >= 1
    ensures n - 1 == |StylesOf(s.data, gender, category)|
    ensures n == 1 <==> StyleKey(gender, category) !in s.data.styles || s.data.styles[StyleKey(gender, category)] == []
  {
    |StylesOf(s.data, gender, category)| + 1
  }

  // ----- The edit session -----

  /** `openAdminModal`: the session starts on a copy of the live catalog. */
  function OpenAdmin(s: State): (r: State)
    ensures r.pendingData == Some(s.data)
    ensures r.(pendingData := s.pendingData) == s
  {
    s.(pendingData := Some(s.data))
  }

  /** `closeAdminModal`: the copy is dropped; nothing else changes. */
  function CloseAdmin(s: State): (r: State)
    ensures r.pendingData.None?
    ensures r.(pendingData := s.pendingData) == s
  {
    s.(pendingData := None)
  }

  /** One admin action. It changes only the copy being edited; without an open session
      the source fails on the missing copy before writing anything. */
  function AdminEdit(s: State, e: Edit): (r: State)
    ensures r.data == s.data
    ensures s.pendingData.None? ==> r == s
    ensures s.pendingData.Some? ==> r.pendingData == Some(Apply(s.pendingData.value, e))
    ensures r.(pendingData := s.pendingData) == s
  {
    if s.pendingData.None? then s
    else s.(pendingData := Some(Apply(s.pendingData.value, e)))
  }

  function AdminEdits(s: State, es: seq<Edit>): State
    decreases |es|
  {
    if es == [] then s else AdminEdits(AdminEdit(s, es[0]), es[1..])
  }

  /** `saveAdminChanges`: the copy becomes the live catalog, the session ends, and the
      current gender and category move to the first of each (none when there are none).
      The photo, the selected style, the result and the processing flag are kept. */
  function SaveAdminChanges(s: State): (r: State)
    requires s.pendingData.Some?
    ensures r.data == s.pendingData.value
    ensures r.pendingData.None?
    ensures r.currentGender.Some? <==> |r.data.genders| > 0
    ensures r.currentGender.Some? ==> r.currentGender.value == r.data.genders[0]
    ensures r.currentCategory.Some? <==>
      |r.data.genders| > 0 && |CategoriesOf(r.data, r.data.genders[0])| > 0
      && CategoriesOf(r.data, r.data.genders[0])[0] != ""
    ensures r.currentCategory.Some? ==> r.currentCategory.value == CategoriesOf(r.data, r.data.genders[0])[0]
    ensures r.myPhoto == s.myPhoto && r.selectedStyle == s.selectedStyle
    ensures r.resultImage == s.resultImage && r.isProcessing == s.isProcessing
  {
    var data := s.pendingData.value;
    if |data.genders| > 0 then
      var gender := data.genders[0];
      var categories := CategoriesOf(data, gender);
      // `categories[0] || null`: an empty name counts as none.
      var category := if |categories| > 0 && categories[0] != "" then Some(categories[0]) else None;
      s.(data := data, pendingData := None, currentGender := Some(gender), currentCategory := category)
    else
      s.(data := data, pendingData := None, currentGender := None, currentCategory := None)
  }

  /** Edits in a session touch only the copy, which holds the edits applied in order. */
  lemma {:induction false} EditsStayInCopy(s: State, es: seq<Edit>)
    requires s.pendingData.Some?
    ensures AdminEdits(s, es).pendingData == Some(ApplyAll(s.pendingData.value, es))
    ensures AdminEdits(s, es).(pendingData := s.pendingData) == s
    decreases |es|
  {
    if es != [] {
      EditsStayInCopy(AdminEdit(s, es[0]), es[1..]);
    }
  }

  /** A session that is closed without saving leaves the live catalog, and everything
      else, exactly as it was before the session was opened. */
  lemma AbandonedSessionChangesNothing(s: State, es: seq<Edit>)
    ensures CloseAdmin(AdminEdits(OpenAdmin(s), es)) == s.(pendingData := None)
  {
    EditsStayInCopy(OpenAdmin(s), es);
  }

  /** A session that is saved makes the live catalog the old one with the edits applied. */
  lemma SavedSessionCommits(s: State, es: seq<Edit>)
    ensures AdminEdits(OpenAdmin(s), es).pendingData.Some?
    ensures SaveAdminChanges(AdminEdits(OpenAdmin(s), es)).data == ApplyAll(s.data, es)
  {
    EditsStayInCopy(OpenAdmin(s), es);
  }

  /** Saving a session whose edits each meet `Allowed` keeps a valid live catalog valid. */
  lemma SavedSessionValid(s: State, es: seq<Edit>)
    requires Valid(s.data) && AllAllowed(s.data, es)
    ensures AdminEdits(OpenAdmin(s), es).pendingData.Some?
    ensures Valid(SaveAdminChanges(AdminEdits(OpenAdmin(s), es)).data)
  {
    SavedSessionCommits(s, es);
    ApplyAllValid(s.data, es);
  }

  /** `getNextStyleNumber` reads the live catalog, so an upload made during a session grows
      the copy's list by the number of files while the reported number stays where it was. */
  lemma SessionUploadNotCounted(s: State, gender: string, category: string, files: seq<Upload>)
    requires s.pendingData.Some? && files != [] && gender != [] && category != []
    ensures var r := AdminEdit(s, AddStyles(gender, category, files));
      && GetNextStyleNumber(r, gender, category) == GetNextStyleNumber(s, gender, category)
      && |StylesOf(r.pendingData.value, gender, category)|
           == |StylesOf(s.pendingData.value, gender, category)| + |files|
  {
  }
}

=== FILE: catalog.dfy ===
/** The style catalog and the administrator's edits to it.

    A catalog holds the list of genders, each gender's list of categories, and the styles
    of each (gender, category) stored under the text key `gender + "-" + category`.
    Every edit is a pure function from the catalog being edited to the edited catalog;
    browser dialogs (`prompt`, `confirm`) and generated ids arrive as arguments. */
module CatalogStore {
  import opened Optional
  import opened Decimal
  import opened JsString

  datatype Style = Style(id: string, name: string, image: string, prompt: string)

  datatype Catalog = Catalog(
    genders: seq<string>,
    categories: map<string, seq<string>>,
    styles: map<string, seq<Style>>)

  /** One uploaded file once read: the id generated for it and its image as a data URL. */
  datatype Upload = Upload(id: string, image: string)

  // ----- Sequences -----

  /** `xs.filter(y => y !== x)`. */
  function Without(xs: seq<string>, x: string): (r: seq<string>)
    ensures x !in r
    ensures forall y :: y != x ==> multiset(r)[y] == multiset(xs)[y]
    ensures forall y :: y in r <==> y in xs && y != x
  {
    if xs == [] then []
    else
      assert xs == [xs[0]] + xs[1..];
      (if xs[0] == x then [] else [xs[0]]) + Without(xs[1..], x)
  }

  /** Filtering distributes over concatenation, so `Without` keeps the survivors' order. */
  lemma {:induction false} WithoutAppend(a: seq<string>, b: seq<string>, x: string)
    ensures Without(a + b, x) == Without(a, x) + Without(b, x)
  {
    if a != [] {
      assert (a + b)[1..] == a[1..] + b;
      WithoutAppend(a[1..], b, x);
    } else {
      assert a + b == b;
    }
  }

  /** `xs.splice(index, 1)`, for an index inside `xs`. */
  function RemoveAt<T>(xs: seq<T>, index: nat): (r: seq<T>)
    requires index < |xs|
    ensures |r| == |xs| - 1
    ensures forall i :: 0 <= i < index ==> r[i] == xs[i]
    ensures forall i :: index <= i < |r| ==> r[i] == xs[i + 1]
    ensures multiset(r) + multiset{xs[index]} == multiset(xs)
  {
    assert xs == xs[..index] + [xs[index]] + xs[index + 1..];
    xs[..index] + xs[index + 1..]
  }

  // ----- Keys, names, numbering -----

  /** `getStyleKey`: the text key under which (gender, category) keeps its styles. */
  function StyleKey(gender: string, category: string): (k: string)
    ensures |k| == |gender| + 1 + |category|
    ensures StartsWith(k, gender + "-")
  {
    StartsWithConcat(gender + "-", category);
    gender + "-" + category
  }

  /** The automatic name of the style at 1-based position `n`: "<gender> <category> <n>". */
  function StyleName(gender: string, category: string, n: nat): string {
    gender + " " + category + " " + NatToString(n)
  }

  /** The default transform prompt given to an uploaded style. */
  function DefaultPrompt(name: string, category: string): string {
    name + " hairstyle, " + category + " style"
  }

  /** The styles stored for (gender, category), or none (`styles[key] || []`). */
  function StylesOf(cat: Catalog, gender: string, category: string): (r: seq<Style>)
    ensures StyleKey(gender, category) in cat.styles ==> r == cat.styles[StyleKey(gender, category)]
    ensures StyleKey(gender, category) !in cat.styles ==> r == []
  {
    var key := StyleKey(gender, category);
    if key in cat.styles then cat.styles[key] else []
  }

  /** The categories listed for a gender, or none (`categories[gender] || []`). */
  function CategoriesOf(cat: Catalog, gender: string): (r: seq<string>)
    ensures gender in cat.categories ==> r == cat.categories[gender]
    ensures gender !in cat.categories ==> r == []
  {
    if gender in cat.categories then cat.categories[gender] else []
  }

  /** Two entries that differ at most in their display name. */
  predicate SameButName(a: Style, b: Style) {
    a.id == b.id && a.image == b.image && a.prompt == b.prompt
  }

  /** The styles at positions `start + 1 ..` of a list, named after those positions. */
  ghost predicate NumberedFrom(list: seq<Style>, gender: string, category: string, start: nat) {
    forall i :: 0 <= i < |list| ==> list[i].name == StyleName(gender, category, start + i + 1)
  }

  /** Each list entry's name is its own 1-based position: "<g> <c> 1", "<g> <c> 2", ... */
  ghost predicate Numbered(list: seq<Style>, gender: string, category: string) {
    NumberedFrom(list, gender, category, 0)
  }

  // ----- Genders -----

  /** `addGender`, given what the user typed into the prompt (None when it was cancelled).
      A blank or already present name is refused and nothing changes; otherwise the
      trimmed name is appended and given an empty category list. */
  function AddGender(cat: Catalog, typed: Option<string>): (r: Catalog)
    ensures typed.None? || Trim(typed.value) == [] || Trim(typed.value) in cat.genders ==> r == cat
    ensures typed.Some? && Trim(typed.value) != [] && Trim(typed.value) !in cat.genders ==>
      && r.genders == cat.genders + [Trim(typed.value)]
      && r.categories.Keys == cat.categories.Keys + {Trim(typed.value)}
      && r.categories[Trim(typed.value)] == []
      && (forall g :: g in cat.categories && g != Trim(typed.value) ==> r.categories[g] == cat.categories[g])
      && r.styles == cat.styles
  {
    if typed.None? || typed.value == "" || Trim(typed.value) == "" then cat
    else
      var name := Trim(typed.value);
      if name in cat.genders then cat
      else cat.(genders := cat.genders + [name], categories := cat.categories[name := []])
  }

  /** `deleteGender`, given the answer to the confirmation dialog. Every occurrence of the
      gender leaves the list, its category list goes, and so does every style list whose
      key starts with `gender + "-"` (which also catches keys of other genders whose name
      begins that way). */
  function DeleteGender(cat: Catalog, gender: string, confirmed: bool): (r: Catalog)
    ensures !confirmed ==> r == cat
    ensures confirmed ==>
      && r.genders == Without(cat.genders, gender)
      && r.categories == cat.categories - {gender}
      && (forall k :: k in r.styles <==> k in cat.styles && !StartsWith(k, gender + "-"))
      && (forall k :: k in r.styles ==> r.styles[k] == cat.styles[k])
  {
    if !confirmed then cat
    else
      var prefix := gender + "-";
      cat.(
        genders := Without(cat.genders, gender),
        categories := cat.categories - {gender},
        styles := map k | k in cat.styles && !StartsWith(k, prefix) :: cat.styles[k])
  }

  // ----- Categories -----

  /** `addCategory`, with the gender chosen in the select box and the text typed in the
      input. An empty gender, a blank name or a name already under the gender is refused
      and nothing changes; otherwise the trimmed name is appended to the gender's list,
      which is created when missing. */
  function AddCategory(cat: Catalog, gender: string, typed: string): (r: Catalog)
    ensures gender == [] || Trim(typed) == [] || Trim(typed) in CategoriesOf(cat, gender) ==> r == cat
    ensures gender != [] && Trim(typed) != [] && Trim(typed) !in CategoriesOf(cat, gender) ==>
      && r.categories.Keys == cat.categories.Keys + {gender}
      && r.categories[gender] == CategoriesOf(cat, gender) + [Trim(typed)]
      && (forall g :: g in cat.categories && g != gender ==> r.categories[g] == cat.categories[g])
      && r.genders == cat.genders
      && r.styles == cat.styles
  {
    var name := Trim(typed);
    if gender == "" then cat
    else if name == "" then cat
    else
      var existing := CategoriesOf(cat, gender);
      if name in existing then cat
      else cat.(categories := cat.categories[gender := existing + [name]])
  }

  /** `deleteCategory`, given the answer to the confirmation dialog. The category leaves
      the gender's list and exactly the style list under `StyleKey(gender, category)` is
      dropped. A gender without a category list makes the source throw before it writes
      anything, so nothing changes then either. */
  function DeleteCategory(cat: Catalog, gender: string, category: string, confirmed: bool): (r: Catalog)
    ensures !confirmed || gender !in cat.categories ==> r == cat
    ensures confirmed && gender in cat.categories ==>
      && r.genders == cat.genders
      && r.categories == cat.categories[gender := Without(cat.categories[gender], category)]
      && r.styles == cat.styles - {StyleKey(gender, category)}
  {
    if !confirmed || gender !in cat.categories then cat
    else
      cat.(
        categories := cat.categories[gender := Without(cat.categories[gender], category)],
        styles := cat.styles - {StyleKey(gender, category)})
  }

  // ----- Styles -----

  /** The styles made from `files` when the list already holds `count` entries: the i-th
      file becomes entry `count + i + 1`, named and prompted after that position. */
  function NewStyles(gender: string, category: string, count: nat, files: seq<Upload>): (r: seq<Style>)
    ensures |r| == |files|
    ensures forall i :: 0 <= i < |r| ==>
      && r[i].id == files[i].id
      && r[i].image == files[i].image
      && r[i].name == StyleName(gender, category, count + i + 1)
      && r[i].prompt == DefaultPrompt(r[i].name, category)
    decreases |files|
  {
    if files == [] then []
    else
      var name := StyleName(gender, category, count + 1);
      [Style(files[0].id, name, files[0].image, DefaultPrompt(name, category))]
        + NewStyles(gender, category, count + 1, files[1..])
  }

  /** The data effect of `handleAdminStyleUpload`: the files, in the order their reads
      complete, are appended to the list of (gender, category), which is created when
      missing. No files, or no gender or category chosen, changes nothing. */
  function UploadStyles(cat: Catalog, gender: string, category: string, files: seq<Upload>): (r: Catalog)
    ensures files == [] || gender == [] || category == [] ==> r == cat
    ensures files != [] && gender != [] && category != [] ==>
      && r.genders == cat.genders
      && r.categories == cat.categories
      && r.styles.Keys == cat.styles.Keys + {StyleKey(gender, category)}
      && (forall k :: k in cat.styles && k != StyleKey(gender, category) ==> r.styles[k] == cat.styles[k])
      && |StylesOf(r, gender, category)| == |StylesOf(cat, gender, category)| + |files|
      && StylesOf(r, gender, category)[..|StylesOf(cat, gender, category)|] == StylesOf(cat, gender, category)
      && (forall i :: 0 <= i < |files| ==>
            var s := StylesOf(r, gender, category)[|StylesOf(cat, gender, category)| + i];
            && s.id == files[i].id
            && s.image == files[i].image
            && s.name == StyleName(gender, category, |StylesOf(cat, gender, category)| + i + 1)
            && s.prompt == DefaultPrompt(s.name, category))
  {
    if files == [] then cat
    else if gender == "" || category == "" then cat
    else
      var key := StyleKey(gender, category);
      var existing := StylesOf(cat, gender, category);
      cat.(styles := cat.styles[key := existing + NewStyles(gender, category, |existing|, files)])
  }

  /** Every remaining entry renamed after its 1-based position; ids, images and prompts kept. */
  function Renumber(list: seq<Style>, gender: string, category: string): (r: seq<Style>)
    ensures |r| == |list|
    ensures forall i :: 0 <= i < |r| ==> r[i] == list[i].(name := StyleName(gender, category, i + 1))
    ensures Numbered(r, gender, category)
    ensures forall i :: 0 <= i < |r| ==> SameButName(r[i], list[i])
    ensures Numbered(list, gender, category) ==> r == list
  {
    seq(|list|, i requires 0 <= i < |list| => list[i].(name := StyleName(gender, category, i + 1)))
  }

  /** `deleteAdminStyle`: drop the entry at `index` of the list of (gender, category) and
      renumber the rest. No list, or no entry at `index`, changes nothing. */
  function DeleteStyle(cat: Catalog, gender: string, category: string, index: int): (r: Catalog)
    ensures StyleKey(gender, category) !in cat.styles || !(0 <= index < |StylesOf(cat, gender, category)|) ==> r == cat
    ensures StyleKey(gender, category) in cat.styles && 0 <= index < |StylesOf(cat, gender, category)| ==>
      && r.genders == cat.genders
      && r.categories == cat.categories
      && r.styles.Keys == cat.styles.Keys
      && (forall k :: k in cat.styles && k != StyleKey(gender, category) ==> r.styles[k] == cat.styles[k])
      && |r.styles[StyleKey(gender, category)]| == |cat.styles[StyleKey(gender, category)]| - 1
      && Numbered(r.styles[StyleKey(gender, category)], gender, category)
      && (forall i :: 0 <= i < |r.styles[StyleKey(gender, category)]| ==>
            SameButName(r.styles[StyleKey(gender, category)][i],
                        cat.styles[StyleKey(gender, category)][if i < index then i else i + 1]))
  {
    var key := StyleKey(gender, category);
    if key !in cat.styles then cat
    else
      var list := cat.styles[key];
      if index < 0 || index >= |list| then cat
      else cat.(styles := cat.styles[key := Renumber(RemoveAt(list, index), gender, category)])
  }
}

=== FILE: catalog_invariants.dfy ===
/** The shape a catalog keeps under the administrator's edits: genders listed once each and
    exactly the listed genders owning a category list, categories listed once per gender,
    every style list stored under the key of a listed (gender, category), and style ids
    unique across the whole catalog. */
module CatalogInvariants {
  import opened Optional
  import JsString
  import opened CatalogStore

  ghost predicate NoDuplicates(xs: seq<string>) {
    forall y :: multiset(xs)[y] <= 1
  }

  /** `k` is the style key of some listed category of some gender that has a category list. */
  ghost predicate Owned(cat: Catalog, k: string) {
    exists g, c :: g in cat.categories && c in cat.categories[g] && k == StyleKey(g, c)
  }

  ghost function IdsOf(list: seq<Style>): set<string> {
    set i | 0 <= i < |list| :: list[i].id
  }

  /** Every id used anywhere in the catalog. */
  ghost function AllIds(cat: Catalog): set<string> {
    set k, i | k in cat.styles && 0 <= i < |cat.styles[k]| :: cat.styles[k][i].id
  }

  ghost predicate DistinctIds(list: seq<Style>) {
    forall i, j :: 0 <= i < j < |list| ==> list[i].id != list[j].id
  }

  ghost predicate Valid(cat: Catalog) {
    && NoDuplicates(cat.genders)
    && (forall g :: g in cat.categories <==> g in cat.genders)
    && (forall g :: g in cat.categories ==> NoDuplicates(cat.categories[g]))
    && (forall k :: k in cat.styles ==> Owned(cat, k))
    && UniqueIds(cat.styles)
  }

  /** The ids-related half of `Valid`, for catalogs whose style lists change. */
  ghost predicate UniqueIds(styles: map<string, seq<Style>>) {
    && (forall k :: k in styles ==> DistinctIds(styles[k]))
    && (forall k1, k2 :: k1 in styles && k2 in styles && k1 != k2 ==> IdsOf(styles[k1]) !! IdsOf(styles[k2]))
  }

  /** Unique ids survive replacing one list by a list of fewer, still distinct ids. */
  lemma UniqueIdsShrink(a: map<string, seq<Style>>, key: string, list: seq<Style>)
    requires UniqueIds(a) && key in a
    requires IdsOf(list) <= IdsOf(a[key]) && DistinctIds(list)
    ensures UniqueIds(a[key := list])
  {
  }

  /** Adding a gender keeps the catalog valid: the name is new, so it owns no categories yet. */
  lemma AddGenderValid(cat: Catalog, typed: Option<string>)
    requires Valid(cat)
    ensures Valid(AddGender(cat, typed))
  {
  }

  /** Deleting a gender keeps the catalog valid: every style list of the gender is under a
      key that starts with `gender + "-"`, so none is left without its owner. */
  lemma DeleteGenderValid(cat: Catalog, gender: string, confirmed: bool)
    requires Valid(cat)
    ensures Valid(DeleteGender(cat, gender, confirmed))
  {
  }

  /** Adding a category under a listed gender keeps the catalog valid; with no gender chosen
      (the empty option the select shows once every gender is deleted) nothing is added. */
  lemma AddCategoryValid(cat: Catalog, gender: string, typed: string)
    requires Valid(cat) && (gender == "" || gender in cat.genders)
    ensures Valid(AddCategory(cat, gender, typed))
  {
  }

  /** Deleting a category keeps the catalog valid: only the style list under its own key
      loses its owner, and that list is dropped with it. */
  lemma DeleteCategoryValid(cat: Catalog, gender: string, category: string, confirmed: bool)
    requires Valid(cat)
    ensures Valid(DeleteCategory(cat, gender, category, confirmed))
  {
  }

  /** The ids of a list are exactly the ids it is made of. */
  lemma IdsOfAppend(a: seq<Style>, b: seq<Style>)
    ensures IdsOf(a + b) == IdsOf(a) + IdsOf(b)
  {
    forall x | x in IdsOf(a + b)
      ensures x in IdsOf(a) + IdsOf(b)
    {
      var i :| 0 <= i < |a + b| && (a + b)[i].id == x;
      if i >= |a| { assert b[i - |a|].id == x; }
    }
    forall x | x in IdsOf(a) + IdsOf(b)
      ensures x in IdsOf(a + b)
    {
      if x in IdsOf(a) {
        var i :| 0 <= i < |a| && a[i].id == x;
        assert (a + b)[i].id == x;
      } else {
        var i :| 0 <= i < |b| && b[i].id == x;
        assert (a + b)[|a| + i].id == x;
      }
    }
  }

  /** The ids an upload brings in: none already in the catalog, no two alike. */
  ghost predicate FreshIds(cat: Catalog, files: seq<Upload>) {
    && (forall i :: 0 <= i < |files| ==> files[i].id !in AllIds(cat))
    && (forall i, j :: 0 <= i < j < |files| ==> files[i].id != files[j].id)
  }

  lemma IdsOfInAll(cat: Catalog, k: string)
    requires k in cat.styles
    ensures IdsOf(cat.styles[k]) <= AllIds(cat)
  {
  }

  /** The ids of the styles an upload creates are the ids supplied with its files. */
  lemma NewStylesIds(gender: string, category: string, count: nat, files: seq<Upload>)
    ensures IdsOf(NewStyles(gender, category, count, files)) == set i | 0 <= i < |files| :: files[i].id
  {
  }

  /** Appending styles with fresh ids to a list of distinct ids keeps them distinct. */
  lemma AppendFreshDistinct(existing: seq<Style>, added: seq<Style>)
    requires DistinctIds(existing) && DistinctIds(added)
    requires IdsOf(existing) !! IdsOf(added)
    ensures DistinctIds(existing + added)
  {
    var list := existing + added;
    forall i, j | 0 <= i < j < |list|
      ensures list[i].id != list[j].id
    {
      if j < |existing| {
        assert list[i] == existing[i] && list[j] == existing[j];
      } else if i >= |existing| {
        assert list[i] == added[i - |existing|] && list[j] == added[j - |existing|];
      } else {
        assert list[i] == existing[i] && list[i].id in IdsOf(existing);
        assert list[j] == added[j - |existing|] && list[j].id in IdsOf(added);
      }
    }
  }

  /** Replacing the list under `key` by a longer one whose extra ids are nowhere in the map
      keeps ids unique. */
  lemma UniqueIdsGrow(a: map<string, seq<Style>>, key: string, list: seq<Style>, extra: set<string>)
    requires UniqueIds(a) && DistinctIds(list)
    requires IdsOf(list) <= (if key in a then IdsOf(a[key]) else {}) + extra
    requires forall k :: k in a ==> IdsOf(a[k]) !! extra
    ensures UniqueIds(a[key := list])
  {
  }

  /** Uploading to a listed category with freshly generated ids keeps the catalog valid. */
  lemma UploadStylesValid(cat: Catalog, gender: string, category: string, files: seq<Upload>)
    requires Valid(cat)
    requires gender in cat.categories && category in cat.categories[gender]
    requires FreshIds(cat, files)
    ensures Valid(UploadStyles(cat, gender, category, files))
  {
    var r := UploadStyles(cat, gender, category, files);
    if files != [] && gender != [] && category != [] {
      var key := StyleKey(gender, category);
      var existing := StylesOf(cat, gender, category);
      var added := NewStyles(gender, category, |existing|, files);
      var list := r.styles[key];
      assert list == existing + added;
      var extra := set i | 0 <= i < |files| :: files[i].id;
      NewStylesIds(gender, category, |existing|, files);
      IdsOfAppend(existing, added);
      forall k | k in cat.styles
        ensures IdsOf(cat.styles[k]) !! extra
      {
        IdsOfInAll(cat, k);
      }
      assert DistinctIds(existing) && IdsOf(existing) !! extra;
      assert DistinctIds(added) by {
        forall i, j | 0 <= i < j < |added| ensures added[i].id != added[j].id {
          assert added[i].id == files[i].id && added[j].id == files[j].id;
        }
      }
      AppendFreshDistinct(existing, added);
      UniqueIdsGrow(cat.styles, key, list, extra);
      forall k | k in r.styles
        ensures Owned(r, k)
      {
        if k == key {
          assert gender in r.categories && category in r.categories[gender];
        } else {
          assert Owned(cat, k);
        }
      }
    }
  }

  /** A valid catalog in which gender "f" has the category "bob" and gender "m" does not. */
  function StaleSelectCatalog(): (cat: Catalog)
    ensures Valid(cat)
    ensures "m" in cat.genders && "bob" !in CategoriesOf(cat, "m")
  {
    var cat := Catalog(["m", "f"], map["m" := ["cut"], "f" := ["cut", "bob"]], map[]);
    assert multiset(cat.genders)["m"] == 1 && multiset(cat.genders)["f"] == 1;
    cat
  }

  /** The key "m-bob" is the key of no listed pair once gender "x" is added to
      `StaleSelectCatalog`. */
  lemma StaleKeyUnowned(cat: Catalog)
    requires cat.categories == StaleSelectCatalog().categories["x" := []]
    ensures !Owned(cat, StyleKey("m", "bob"))
  {
    forall g, c | g in cat.categories && c in cat.categories[g]
      ensures StyleKey("m", "bob") != StyleKey(g, c)
    {
      if g == "m" {
        assert c == "cut";
        assert StyleKey(g, c)[2] == 'c' != StyleKey("m", "bob")[2];
      } else {
        assert g == "f";
        assert StyleKey(g, c)[0] == 'f' != StyleKey("m", "bob")[0];
      }
    }
  }

  /** The listed-pair premise of `UploadStylesValid` is needed, and the admin screens do not
      always meet it. With gender "f" and its category "bob" chosen in the style tab, adding
      gender "x" resets the tab's gender select to the first gender, "m", but leaves its
      category select on "bob". Uploading then targets ("m", "bob") and turns the valid
      catalog into one with a style list that no listed category owns. */
  lemma UploadToUnlistedPairBreaksValid()
    ensures var cat := AddGender(StaleSelectCatalog(), Some("x"));
      && Valid(cat)
      && !Valid(UploadStyles(cat, "m", "bob", [Upload("s1", "img")]))
  {
    AddGenderValid(StaleSelectCatalog(), Some("x"));
    StaleSelectAddGender();
    var r := UploadStyles(AddGender(StaleSelectCatalog(), Some("x")), "m", "bob", [Upload("s1", "img")]);
    assert StyleKey("m", "bob") in r.styles;
    StaleKeyUnowned(r);
  }

  /** Adding gender "x" to `StaleSelectCatalog` gives "x" an empty category list. */
  lemma StaleSelectAddGender()
    ensures AddGender(StaleSelectCatalog(), Some("x")).categories == StaleSelectCatalog().categories["x" := []]
  {
    var before := StaleSelectCatalog();
    JsString.TrimUnique("x", 0, 1, "x");
    assert before.genders == ["m", "f"];
  }

  /** Deleting a style keeps the catalog valid: the remaining ids are a subset of the old. */
  lemma DeleteStyleValid(cat: Catalog, gender: string, category: string, index: int)
    requires Valid(cat)
    ensures Valid(DeleteStyle(cat, gender, category, index))
  {
    var r := DeleteStyle(cat, gender, category, index);
    var key := StyleKey(gender, category);
    if key in cat.styles && 0 <= index < |cat.styles[key]| {
      var before := cat.styles[key];
      var list := r.styles[key];
      assert DistinctIds(before);
      assert forall i :: 0 <= i < |list| ==> list[i].id == before[if i < index then i else i + 1].id;
      assert IdsOf(list) <= IdsOf(before) by {
        forall x | x in IdsOf(list) ensures x in IdsOf(before) {
          var i :| 0 <= i < |list| && list[i].id == x;
          assert before[if i < index then i else i + 1].id == x;
        }
      }
      assert DistinctIds(list) by {
        forall i, j | 0 <= i < j < |list|
          ensures list[i].id != list[j].id
        {
          var i' := if i < index then i else i + 1;
          var j' := if j < index then j else j + 1;
          assert i' < j';
          assert before[i'].id != before[j'].id;
        }
      }
      UniqueIdsShrink(cat.styles, key, list);
      forall k | k in r.styles
        ensures Owned(r, k)
      {
        assert Owned(cat, k);
      }
    }
  }
}

=== FILE: catalog_properties.dfy ===
/** Properties relating several catalog edits, or an edit to the numbering and lookup
    helpers. */
module CatalogProperties {
  import opened Optional
  import opened Decimal
  import opened JsString
  import opened CatalogStore
  import opened CatalogInvariants

  /** Adding the same gender name a second time is refused and changes nothing. */
  lemma AddGenderTwice(cat: Catalog, typed: Option<string>)
    ensures AddGender(AddGender(cat, typed), typed) == AddGender(cat, typed)
  {
  }

  /** Adding a gender never lists a name twice when none was listed twice before. */
  lemma AddGenderNoDuplicates(cat: Catalog, typed: Option<string>)
    requires NoDuplicates(cat.genders)
    ensures NoDuplicates(AddGender(cat, typed).genders)
  {
  }

  /** Adding the same category name under the same gender a second time changes nothing. */
  lemma AddCategoryTwice(cat: Catalog, gender: string, typed: string)
    ensures AddCategory(AddCategory(cat, gender, typed), gender, typed) == AddCategory(cat, gender, typed)
  {
  }

  /** After a gender is deleted, neither it, nor its category list, nor the style list of
      any (gender, category) pair whatsoever can be found. */
  lemma DeleteGenderCascades(cat: Catalog, gender: string, category: string)
    ensures var r := DeleteGender(cat, gender, true);
      && gender !in r.genders
      && gender !in r.categories
      && CategoriesOf(r, gender) == []
      && StylesOf(r, gender, category) == []
  {
  }

  /** The prefix cascade also reaches a different gender: deleting "a" drops the styles of
      gender "a-b", category "c", because their key "a-b-c" starts with "a-". */
  lemma DeleteGenderReachesOtherGender(image: string)
    ensures var s := Style("s1", "a-b c 1", image, "a-b c 1 hairstyle, c style");
      var cat := Catalog(["a", "a-b"], map["a" := [], "a-b" := ["c"]], map[StyleKey("a-b", "c") := [s]]);
      var r := DeleteGender(cat, "a", true);
      && "a-b" in r.genders
      && "c" in CategoriesOf(r, "a-b")
      && StylesOf(cat, "a-b", "c") == [s]
      && StylesOf(r, "a-b", "c") == []
  {
  }

  /** The style key does not determine its pair: gender `g + "-" + h` with category `c`
      shares its key with gender `g` and category `h + "-" + c`, so the two pairs share
      one style list. */
  lemma StyleKeyAmbiguous(g: string, h: string, c: string)
    ensures StyleKey(g + "-" + h, c) == StyleKey(g, h + "-" + c)
  {
  }

  /** Deleting a category drops exactly the style list under its own key. */
  lemma DeleteCategoryKeepsOtherStyles(cat: Catalog, gender: string, category: string, other: string)
    requires gender in cat.categories
    requires StyleKey(gender, other) != StyleKey(gender, category)
    ensures var r := DeleteCategory(cat, gender, category, true);
      && StylesOf(r, gender, category) == []
      && StylesOf(r, gender, other) == StylesOf(cat, gender, other)
      && category !in CategoriesOf(r, gender)
  {
  }

  /** Uploading to a list whose names follow their positions keeps them doing so. */
  lemma UploadKeepsNumbering(cat: Catalog, gender: string, category: string, files: seq<Upload>)
    requires Numbered(StylesOf(cat, gender, category), gender, category)
    ensures Numbered(StylesOf(UploadStyles(cat, gender, category, files), gender, category), gender, category)
  {
  }

  /** `currentCount` at the start of an upload is the length of the edited list: the first
      uploaded style is named after the position one past it, and the list grows by the
      number of files. */
  lemma UploadUsesNextNumber(cat: Catalog, gender: string, category: string, files: seq<Upload>)
    requires files != [] && gender != [] && category != []
    ensures var before := |StylesOf(cat, gender, category)|;
      var after := StylesOf(UploadStyles(cat, gender, category, files), gender, category);
      && after[before].name == StyleName(gender, category, before + 1)
      && |after| == before + |files|
  {
  }

  /** Deleting a style shortens the edited list by one, so the next upload to it is
      numbered one lower. */
  lemma DeleteStyleLowersNextNumber(cat: Catalog, gender: string, category: string, index: int)
    requires 0 <= index < |StylesOf(cat, gender, category)|
    ensures |StylesOf(DeleteStyle(cat, gender, category, index), gender, category)|
      == |StylesOf(cat, gender, category)| - 1
  {
  }

  /** Deleting the last style of a list whose names follow their positions leaves the
      other entries exactly as they were. */
  lemma DeleteLastKeepsOthers(cat: Catalog, gender: string, category: string)
    requires StylesOf(cat, gender, category) != []
    requires Numbered(StylesOf(cat, gender, category), gender, category)
    ensures var list := StylesOf(cat, gender, category);
      StylesOf(DeleteStyle(cat, gender, category, |list| - 1), gender, category) == list[..|list| - 1]
  {
  }

  /** Deleting the only style of a category and uploading one file gives a single style
      named "<g> <c> 1" that carries the new file's id. */
  lemma DeleteOnlyThenUpload(cat: Catalog, gender: string, category: string, file: Upload)
    requires gender != [] && category != []
    requires |StylesOf(cat, gender, category)| == 1
    ensures var r := UploadStyles(DeleteStyle(cat, gender, category, 0), gender, category, [file]);
      && |StylesOf(r, gender, category)| == 1
      && StylesOf(r, gender, category)[0].name == StyleName(gender, category, 1)
      && StylesOf(r, gender, category)[0].id == file.id
  {
  }

  /** A style name is "<gender> <category> " followed by the decimal digits of its position,
      and reading those digits back gives the position. */
  lemma StyleNameParts(gender: string, category: string, n: nat)
    ensures var name := StyleName(gender, category, n);
      && StartsWith(name, gender + " " + category + " ")
      && var digits := name[|gender| + |category| + 2..];
         IsDigits(digits) && digits != [] && ParseDigits(digits) == n
  {
    var prefix := gender + " " + category + " ";
    ParseNatToString(n);
    StartsWithConcat(prefix, NatToString(n));
    assert (prefix + NatToString(n))[|prefix|..] == NatToString(n);
  }

  /** An uploaded style's default prompt is never empty: it is the name, " hairstyle, ",
      and the category followed by " style". */
  lemma DefaultPromptParts(name: string, category: string)
    ensures var prompt := DefaultPrompt(name, category);
      && prompt != []
      && StartsWith(prompt, name + " hairstyle, ")
      && prompt[|name| + 12..] == category + " style"
  {
  }

  /** Renaming is determined by position only: distinct positions get distinct names. */
  lemma StyleNamesDistinct(gender: string, category: string, m: nat, n: nat)
    requires m != n
    ensures StyleName(gender, category, m) != StyleName(gender, category, n)
  {
    var p := gender + " " + category + " ";
    if StyleName(gender, category, m) == StyleName(gender, category, n) {
      assert NatToString(m) == StyleName(gender, category, m)[|p|..];
      assert NatToString(n) == StyleName(gender, category, n)[|p|..];
      NatToStringInjective(m, n);
    }
  }
}

=== FILE: decimal.dfy ===
/** Decimal rendering of natural numbers, as a template literal `${n}` prints a
    non-negative integer, together with the reading back that makes it checkable. */
module Decimal {

  /** True when every character of `s` is one of '0'..'9'. */
  predicate IsDigits(s: string) {
    forall i :: 0 <= i < |s| ==> '0' <= s[i] <= '9'
  }

  function DigitChar(d: nat): (ch: char)
    requires d < 10
    ensures '0' <= ch <= '9'
    ensures ch as int - '0' as int == d
  {
    ('0' as int + d) as char
  }

  function DigitValue(ch: char): (d: nat)
    requires '0' <= ch <= '9'
    ensures d < 10
    ensures DigitChar(d) == ch
  {
    ch as int - '0' as int
  }

  /** The decimal text of `n`: digits only, never empty, no leading zero. */
  function NatToString(n: nat): (s: string)
    ensures |s| >= 1 && IsDigits(s)
    ensures s[0] == '0' <==> n == 0
    ensures n == 0 ==> s == "0"
    decreases n
  {
    if n < 10 then [DigitChar(n)] else NatToString(n / 10) + [DigitChar(n % 10)]
  }

  /** The number a string of decimal digits denotes (most significant digit first). */
  function ParseDigits(s: string): (n: nat)
    requires IsDigits(s)
    decreases |s|
  {
    if s == [] then 0 else 10 * ParseDigits(s[..|s| - 1]) + DigitValue(s[|s| - 1])
  }

  /** Reading the printed number gives the number back. */
  lemma {:induction false} ParseNatToString(n: nat)
    ensures ParseDigits(NatToString(n)) == n
    decreases n
  {
    var s := NatToString(n);
    if n < 10 {
      assert s[..|s| - 1] == [];
    } else {
      ParseNatToString(n / 10);
      assert s[..|s| - 1] == NatToString(n / 10);
    }
  }

  /** Different numbers print differently, so a printed position identifies its number. */
  lemma NatToStringInjective(a: nat, b: nat)
    ensures NatToString(a) == NatToString(b) ==> a == b
  {
    ParseNatToString(a);
    ParseNatToString(b);
  }
}

=== FILE: jsstring.dfy ===
/** The two JavaScript string operations the catalog editor relies on:
    `String.prototype.trim` and `String.prototype.startsWith`. */
module JsString {

  /** The characters `trim` removes: ECMAScript's WhiteSpace and LineTerminator code points. */
  predicate IsWhitespace(ch: char) {
    || ch == ' ' || ch == '\t' || ch == '\n' || ch == '\r'
    || ch == '\U{B}' || ch == '\U{C}' || ch == '\U{A0}' || ch == '\U{1680}'
    || ('\U{2000}' <= ch <= '\U{200A}')
    || ch == '\U{2028}' || ch == '\U{2029}' || ch == '\U{202F}' || ch == '\U{205F}'
    || ch == '\U{3000}' || ch == '\U{FEFF}'
  }

  predicate AllWhitespace(s: string) {
    forall i :: 0 <= i < |s| ==> IsWhitespace(s[i])
  }

  /** The number of whitespace characters at the start of `s`. */
  function LeadingWhitespace(s: string): (n: nat)
    ensures n <= |s|
    ensures AllWhitespace(s[..n])
    ensures n < |s| ==> !IsWhitespace(s[n])
    decreases |s|
  {
    if s != [] && IsWhitespace(s[0]) then
      var rest := LeadingWhitespace(s[1..]);
      assert s[..1 + rest] == [s[0]] + s[1..][..rest];
      1 + rest
    else 0
  }

  /** The number of whitespace characters at the end of `s`. */
  function TrailingWhitespace(s: string): (n: nat)
    ensures n <= |s|
    ensures AllWhitespace(s[|s| - n..])
    ensures n < |s| ==> !IsWhitespace(s[|s| - n - 1])
    decreases |s|
  {
    if s != [] && IsWhitespace(s[|s| - 1]) then
      var rest := TrailingWhitespace(s[..|s| - 1]);
      assert s[|s| - (1 + rest)..] == s[..|s| - 1][|s| - 1 - rest..] + [s[|s| - 1]];
      1 + rest
    else 0
  }

  /** `r` is what is left of `s` between indices i and j, with only whitespace cut away
      on either side and no whitespace left at either end of `r`. */
  ghost predicate TrimmedAt(s: string, i: int, j: int, r: string) {
    && 0 <= i <= j <= |s|
    && r == s[i..j]
    && AllWhitespace(s[..i])
    && AllWhitespace(s[j..])
    && (r != [] ==> !IsWhitespace(r[0]) && !IsWhitespace(r[|r| - 1]))
  }

  /** Every character of a blank prefix is blank. */
  lemma BlankPrefix(s: string, n: int)
    requires 0 <= n <= |s| && AllWhitespace(s[..n])
    ensures forall k :: 0 <= k < n ==> IsWhitespace(s[k])
  {
  }

  /** Every character of a blank suffix is blank. */
  lemma BlankSuffix(s: string, n: int)
    requires 0 <= n <= |s| && AllWhitespace(s[n..])
    ensures forall k :: n <= k < |s| ==> IsWhitespace(s[k])
  {
  }

  /** `s.trim()`. */
  function Trim(s: string): (r: string)
    ensures TrimmedAt(s, LeadingWhitespace(s), LeadingWhitespace(s) + |r|, r)
    ensures r == [] <==> AllWhitespace(s)
  {
    var lead := LeadingWhitespace(s);
    if lead == |s| then
      assert s[..lead] == s;
      []
    else
      var trail := TrailingWhitespace(s);
      BlankSuffix(s, |s| - trail);
      assert lead < |s| - trail;
      s[lead..|s| - trail]
  }

  /** There is only one way to trim: any cut satisfying `TrimmedAt` leaves `Trim(s)`. */
  lemma {:induction false} TrimUnique(s: string, i: int, j: int, r: string)
    requires TrimmedAt(s, i, j, r)
    ensures Trim(s) == r
  {
    BlankPrefix(s, i);
    BlankSuffix(s, j);
    if r == [] {
      assert AllWhitespace(s);
    } else {
      TrimUniqueNonBlank(s, i, j, r);
    }
  }

  lemma TrimUniqueNonBlank(s: string, i: int, j: int, r: string)
    requires TrimmedAt(s, i, j, r) && r != []
    ensures Trim(s) == r
  {
    var lead := LeadingWhitespace(s);
    var trail := TrailingWhitespace(s);
    BlankPrefix(s, i);
    BlankSuffix(s, j);
    BlankPrefix(s, lead);
    BlankSuffix(s, |s| - trail);
    assert s[i] == r[0];
    assert s[j - 1] == r[|r| - 1];
    assert lead == i;
    assert |s| - trail == j;
  }

  /** Trimming twice is trimming once. */
  lemma TrimIdempotent(s: string)
    ensures Trim(Trim(s)) == Trim(s)
  {
  }

  /** `s.startsWith(prefix)`. */
  function StartsWith(s: string, prefix: string): (b: bool)
    ensures b <==> |prefix| <= |s| && s == prefix + s[|prefix|..]
    ensures b <==> |prefix| <= |s| && forall i :: 0 <= i < |prefix| ==> s[i] == prefix[i]
  {
    |prefix| <= |s| && s[..|prefix|] == prefix
  }

  /** A string starts with `prefix` exactly when it is `prefix` followed by something. */
  lemma StartsWithConcat(prefix: string, rest: string)
    ensures StartsWith(prefix + rest, prefix)
  {
  }
}

=== FILE: optional.dfy ===
/** A value that may be absent: JavaScript's `null`/`undefined` next to a present value. */
module Optional {

  datatype Option<+T> = None | Some(value: T) {

    /** The present value, or `default` when there is none (JavaScript's `x || default`
        for values that are never falsy when present). */
    function GetOr(default: T): (r: T)
      ensures Some? ==> r == value
      ensures None? ==> r == default
    {
      match this
      case Some(v) => v
      case None => default
    }
  }
}

=== FILE: selection.dfy ===
/** The user's side: the uploaded photo, the chosen style, the transform button and one
    transform at a time.

    The transform call itself (`callTransformAPI`) is not modelled; its outcome is given. */
module Selection {
  import opened Optional
  import opened CatalogStore
  import opened App
  import Storage

  /** The largest photo accepted, in bytes (10 MiB). */
  const MaxPhotoBytes: nat := 10 * 1024 * 1024

  /** `!!state.myPhoto`: the photo, `null` or a data URL, is truthy. */
  function HasPhoto(s: State): (b: bool)
    ensures b == Storage.Truthy(if s.myPhoto.None? then Storage.JNull else Storage.JString(s.myPhoto.value))
  {
    s.myPhoto.Some? && s.myPhoto.value != ""
  }

  /** `!!state.selectedStyle`: the selection, `null` or a style object, is truthy. */
  function HasStyle(s: State): (b: bool)
    ensures b == Storage.Truthy(if s.selectedStyle.None? then Storage.JNull
                                else Storage.EncodeStyle(s.selectedStyle.value.style))
  {
    s.selectedStyle.Some?
  }

  /** The status line under the transform button. */
  datatype Status = NeedPhotoAndStyle | NeedPhoto | NeedStyle | ReadyToTransform

  datatype Button = Button(enabled: bool, status: Status)

  /** `updateTransformButton`: enabled exactly when both a photo and a style are present;
      the status names what is still missing. */
  function TransformButton(s: State): (b: Button)
    ensures b.enabled <==> HasPhoto(s) && HasStyle(s)
    ensures b.enabled <==> b.status == ReadyToTransform
    ensures b.status == NeedPhotoAndStyle <==> !HasPhoto(s) && !HasStyle(s)
    ensures b.status == NeedPhoto <==> !HasPhoto(s) && HasStyle(s)
    ensures b.status == NeedStyle <==> HasPhoto(s) && !HasStyle(s)
  {
    var photo := HasPhoto(s);
    var style := HasStyle(s);
    var status :=
      if !photo && !style then NeedPhotoAndStyle
      else if !photo then NeedPhoto
      else if !style then NeedStyle
      else ReadyToTransform;
    Button(photo && style, status)
  }

  /** `processMyPhoto`, given the file's size and the data URL it reads as. A file over
      the limit is refused and nothing changes; otherwise it becomes the photo and
      nothing else changes (an earlier result stays). */
  function ProcessMyPhoto(s: State, size: int, dataUrl: string): (r: State)
    ensures size > MaxPhotoBytes ==> r == s
    ensures size <= MaxPhotoBytes ==> r.myPhoto == Some(dataUrl) && r.(myPhoto := s.myPhoto) == s
  {
    if size > MaxPhotoBytes then s else s.(myPhoto := Some(dataUrl))
  }

  /** `removeMyPhoto`. */
  function RemoveMyPhoto(s: State): (r: State)
    ensures !HasPhoto(r) && r.(myPhoto := s.myPhoto) == s
  {
    s.(myPhoto := None)
  }

  /** `selectStyle`: the new selection replaces any earlier one. */
  function SelectStyle(s: State, chosen: Selected): (r: State)
    ensures r.selectedStyle == Some(chosen)
    ensures r.(selectedStyle := s.selectedStyle) == s
  {
    s.(selectedStyle := Some(chosen))
  }

  /** `removeSelectedStyle`. */
  function RemoveSelectedStyle(s: State): (r: State)
    ensures !HasStyle(r) && r.(selectedStyle := s.selectedStyle) == s
  {
    s.(selectedStyle := None)
  }

  /** The selection made by uploading a reference image of one's own
      (`handleCustomStyleUpload`), given the timestamp text and the image read. */
  function CustomStyle(stamp: string, image: string): (chosen: Selected)
    ensures chosen.style.image == image
    ensures chosen.gender == "custom" && chosen.category == "custom"
    ensures chosen.style.prompt != ""
  {
    Selected(Style("custom-" + stamp, "커스텀 스타일", image,
                   "apply the exact hairstyle from the reference image"), "custom", "custom")
  }

  /** `styles.find(s => s.id === id)`: the first entry with the id. */
  function FindById(list: seq<Style>, id: string): (r: Option<Style>)
    ensures r.Some? ==> r.value in list && r.value.id == id
    ensures r.None? <==> forall i :: 0 <= i < |list| ==> list[i].id != id
    ensures r.Some? ==>
      exists i :: 0 <= i < |list| && list[i] == r.value && (forall j :: 0 <= j < i ==> list[j].id != id)
    decreases |list|
  {
    if list == [] then None
    else if list[0].id == id then Some(list[0])
    else
      var rest := FindById(list[1..], id);
      assert forall j :: 1 <= j < |list| ==> list[j] == list[1..][j - 1];
      rest
  }

  /** A click on a style card in the grid of the current gender and category: the style
      with that id is selected together with them. Without a current gender and category
      (either missing or empty) the grid shows no cards, and nothing changes. */
  function PickFromGrid(s: State, id: string): (r: State)
    ensures r.(selectedStyle := s.selectedStyle) == s
    ensures r.selectedStyle != s.selectedStyle ==>
      && s.currentGender.Some? && s.currentCategory.Some?
      && r.selectedStyle.Some?
      && r.selectedStyle.value.gender == s.currentGender.value
      && r.selectedStyle.value.category == s.currentCategory.value
      && r.selectedStyle.value.style in StylesOf(s.data, s.currentGender.value, s.currentCategory.value)
      && r.selectedStyle.value.style.id == id
    ensures (|| s.currentGender.None? || s.currentGender.value == ""
             || s.currentCategory.None? || s.currentCategory.value == "") ==> r == s
    ensures s.currentGender.Some? && s.currentGender.value != "" &&
            s.currentCategory.Some? && s.currentCategory.value != "" ==>
      var g := s.currentGender.value;
      var c := s.currentCategory.value;
      && (FindById(StylesOf(s.data, g, c), id).None? ==> r == s)
      && (FindById(StylesOf(s.data, g, c), id).Some? ==>
            r.selectedStyle == Some(Selected(FindById(StylesOf(s.data, g, c), id).value, g, c)))
  {
    if s.currentGender.None? || s.currentGender.value == "" then s
    else if s.currentCategory.None? || s.currentCategory.value == "" then s
    else
      var g := s.currentGender.value;
      var c := s.currentCategory.value;
      match FindById(StylesOf(s.data, g, c), id)
      case None => s
      case Some(style) => SelectStyle(s, Selected(style, g, c))
  }

  // ----- Transform -----

  /** The body sent to the transform endpoint. */
  datatype Request = Request(sourceImage: string, styleImage: string, styleName: string, stylePrompt: string)

  /** The request for a photo and a selection; a style without a prompt is described by
      its name (`prompt || name + " hairstyle"`). */
  function TransformRequest(photo: string, chosen: Selected): (q: Request)
    ensures q.sourceImage == photo && q.styleImage == chosen.style.image
    ensures q.styleName == chosen.style.name
    ensures chosen.style.prompt != "" ==> q.stylePrompt == chosen.style.prompt
    ensures chosen.style.prompt == "" ==> q.stylePrompt == chosen.style.name + " hairstyle"
  {
    var prompt := if chosen.style.prompt != "" then chosen.style.prompt else chosen.style.name + " hairstyle";
    Request(photo, chosen.style.image, chosen.style.name, prompt)
  }

  /** What the transform call ends with: a result image, or an error that is shown. */
  datatype Outcome = Delivered(image: string) | Failed(message: string)

  /** The synchronous start of `handleTransform`: refused (None, and no request is sent)
      while a transform is running or when the photo or the style is missing; otherwise
      the processing flag is raised. */
  function BeginTransform(s: State): (r: Option<State>)
    ensures r.None? <==> s.isProcessing || !HasPhoto(s) || !HasStyle(s)
    ensures r.Some? ==> r.value.isProcessing && r.value.(isProcessing := s.isProcessing) == s
  {
    if s.isProcessing || !HasPhoto(s) || !HasStyle(s) then None
    else Some(s.(isProcessing := true))
  }

  /** The end of `handleTransform` once the call settles: a non-empty result becomes the
      result image, anything else leaves the previous one, and the processing flag is
      lowered in every case. */
  function FinishTransform(s: State, outcome: Outcome): (r: State)
    ensures !r.isProcessing
    ensures outcome.Delivered? && outcome.image != "" ==> r.resultImage == Some(outcome.image)
    ensures !(outcome.Delivered? && outcome.image != "") ==> r.resultImage == s.resultImage
    ensures r.(isProcessing := s.isProcessing, resultImage := s.resultImage) == s
  {
    var result := if outcome.Delivered? && outcome.image != "" then Some(outcome.image) else s.resultImage;
    s.(isProcessing := false, resultImage := result)
  }

  /** `handleTransform` run to completion with the given outcome. */
  function HandleTransform(s: State, outcome: Outcome): (r: State)
    ensures BeginTransform(s).None? ==> r == s
    ensures BeginTransform(s).Some? ==> !r.isProcessing
  {
    match BeginTransform(s)
    case None => s
    case Some(started) => FinishTransform(started, outcome)
  }

  /** The button is enabled exactly when a click would start a transform, unless one is
      already running. */
  lemma ButtonMatchesGuard(s: State)
    requires !s.isProcessing
    ensures TransformButton(s).enabled <==> BeginTransform(s).Some?
  {
  }

  /** While a transform runs, a second one is refused at once: no request, no change. */
  lemma SecondTransformRefused(s: State, outcome: Outcome)
    requires BeginTransform(s).Some?
    ensures BeginTransform(BeginTransform(s).value).None?
    ensures HandleTransform(BeginTransform(s).value, outcome) == BeginTransform(s).value
  {
  }

  /** A completed transform leaves the photo, the selection and the catalog as they were,
      and a delivered non-empty image is the result. */
  lemma TransformKeepsInputs(s: State, outcome: Outcome)
    requires BeginTransform(s).Some?
    ensures var r := HandleTransform(s, outcome);
      && r.myPhoto == s.myPhoto && r.selectedStyle == s.selectedStyle && r.data == s.data
      && (outcome.Delivered? && outcome.image != "" ==> r.resultImage == Some(outcome.image))
      && (outcome.Failed? ==> r.resultImage == s.resultImage)
  {
  }

  /** The size limit is inclusive: exactly 10 MiB is accepted, one byte more is refused. */
  lemma PhotoLimitBoundary(s: State, dataUrl: string)
    ensures ProcessMyPhoto(s, 10 * 1024 * 1024, dataUrl).myPhoto == Some(dataUrl)
    ensures ProcessMyPhoto(s, 10 * 1024 * 1024 + 1, dataUrl) == s
  {
  }

  /** Selecting twice keeps only the second choice. */
  lemma SelectReplaces(s: State, first: Selected, second: Selected)
    ensures SelectStyle(SelectStyle(s, first), second) == SelectStyle(s, second)
  {
  }

  /** With no genders left after a save, no catalog style can be picked from the grid. */
  lemma EmptyCatalogNoPick(s: State, id: string)
    requires s.pendingData.Some? && s.pendingData.value.genders == []
    ensures var r := SaveAdminChanges(s); PickFromGrid(r, id) == r
  {
  }

  /** A saved session may delete the selected style from the catalog; the selection is
      kept regardless, so the button can stay enabled for a style no longer listed. */
  lemma SaveKeepsStaleSelection(s: State)
    requires s.pendingData.Some?
    ensures TransformButton(SaveAdminChanges(s)).enabled == TransformButton(s).enabled
  {
  }
}

=== FILE: storage.dfy ===
/** The stored form of the catalog and `loadData`.

    The catalog is kept in local storage as JSON text. Parsing that text (`JSON.parse`) is
    not modelled: a load is given the stored text, if any, and the value it parses to, or
    None when parsing throws. */
module Storage {
  import opened Optional
  import opened CatalogStore
  import opened CatalogInvariants

  /** A parsed JSON value (numbers restricted to integers). */
  datatype Json =
    | JNull
    | JBool(b: bool)
    | JNumber(n: int)
    | JString(s: string)
    | JArray(items: seq<Json>)
    | JObject(fields: map<string, Json>)

  /** JavaScript truthiness of a parsed value. */
  predicate Truthy(j: Json) {
    match j
    case JNull => false
    case JBool(b) => b
    case JNumber(n) => n != 0
    case JString(s) => s != ""
    case JArray(_) => true
    case JObject(_) => true
  }

  /** `j.name`: the field of an object, or None for a missing field (`undefined`) or a value
      that is not an object. On `null` the source's property access throws instead, which
      `loadData` catches; both end in the same fallback. */
  function Field(j: Json, name: string): (r: Option<Json>)
    ensures r.Some? <==> j.JObject? && name in j.fields
    ensures r.Some? ==> r.value == j.fields[name]
  {
    if j.JObject? && name in j.fields then Some(j.fields[name]) else None
  }

  /** The check `parsed.genders && parsed.categories && parsed.styles`. */
  function HasCatalogShape(j: Json): (b: bool)
    ensures b <==> && j.JObject?
                   && "genders" in j.fields && Truthy(j.fields["genders"])
                   && "categories" in j.fields && Truthy(j.fields["categories"])
                   && "styles" in j.fields && Truthy(j.fields["styles"])
  {
    && Field(j, "genders").Some? && Truthy(Field(j, "genders").value)
    && Field(j, "categories").Some? && Truthy(Field(j, "categories").value)
    && Field(j, "styles").Some? && Truthy(Field(j, "styles").value)
  }

  /** `DEFAULT_DATA`: two genders with the same three categories and no styles. */
  const DefaultData: Catalog := Catalog(
    ["남자", "여자"],
    map["남자" := ["컷", "펌", "염색"], "여자" := ["컷", "펌", "염색"]],
    map[])

  // ----- Encoding -----

  function EncodeStrings(xs: seq<string>): (r: Json)
    ensures r.JArray? && |r.items| == |xs|
    ensures forall i :: 0 <= i < |xs| ==> r.items[i] == JString(xs[i])
  {
    JArray(seq(|xs|, i requires 0 <= i < |xs| => JString(xs[i])))
  }

  function EncodeStyle(s: Style): Json {
    JObject(map["id" := JString(s.id), "name" := JString(s.name),
                "image" := JString(s.image), "prompt" := JString(s.prompt)])
  }

  function EncodeStyles(list: seq<Style>): (r: Json)
    ensures r.JArray? && |r.items| == |list|
    ensures forall i :: 0 <= i < |list| ==> r.items[i] == EncodeStyle(list[i])
  {
    JArray(seq(|list|, i requires 0 <= i < |list| => EncodeStyle(list[i])))
  }

  /** The JSON value `saveData` writes for a catalog. */
  function Encode(cat: Catalog): (r: Json)
    ensures r.JObject? && r.fields.Keys == {"genders", "categories", "styles"}
    ensures r.fields["categories"].JObject? && r.fields["categories"].fields.Keys == cat.categories.Keys
    ensures r.fields["styles"].JObject? && r.fields["styles"].fields.Keys == cat.styles.Keys
  {
    JObject(map[
      "genders" := EncodeStrings(cat.genders),
      "categories" := JObject(map g | g in cat.categories :: EncodeStrings(cat.categories[g])),
      "styles" := JObject(map k | k in cat.styles :: EncodeStyles(cat.styles[k]))])
  }

  // ----- Decoding -----

  function AsString(j: Json): Option<string> {
    if j.JString? then Some(j.s) else None
  }

  /** The strings of a JSON array of strings; None for anything else. */
  function DecodeStrings(j: Json): (r: Option<seq<string>>)
    ensures r.Some? ==> j.JArray? && |r.value| == |j.items|
  {
    if j.JArray? && forall i :: 0 <= i < |j.items| ==> j.items[i].JString? then
      Some(seq(|j.items|, i requires 0 <= i < |j.items| && j.items[i].JString? => j.items[i].s))
    else None
  }

  function DecodeStyle(j: Json): Option<Style> {
    match (AsString(Field(j, "id").GetOr(JNull)), AsString(Field(j, "name").GetOr(JNull)),
           AsString(Field(j, "image").GetOr(JNull)), AsString(Field(j, "prompt").GetOr(JNull)))
    case (Some(id), Some(name), Some(image), Some(prompt)) => Some(Style(id, name, image, prompt))
    case _ => None
  }

  function DecodeStyles(j: Json): (r: Option<seq<Style>>)
    ensures r.Some? ==> j.JArray? && |r.value| == |j.items|
  {
    if j.JArray? && forall i :: 0 <= i < |j.items| ==> DecodeStyle(j.items[i]).Some? then
      Some(seq(|j.items|, i requires 0 <= i < |j.items| && DecodeStyle(j.items[i]).Some? =>
        DecodeStyle(j.items[i]).value))
    else None
  }

  /** The typed catalog a JSON value stands for, when it has exactly the catalog's form. */
  function Decode(j: Json): Option<Catalog> {
    var genders := DecodeStrings(Field(j, "genders").GetOr(JNull));
    var categories := Field(j, "categories").GetOr(JNull);
    var styles := Field(j, "styles").GetOr(JNull);
    if && genders.Some?
       && categories.JObject? && (forall g :: g in categories.fields ==> DecodeStrings(categories.fields[g]).Some?)
       && styles.JObject? && (forall k :: k in styles.fields ==> DecodeStyles(styles.fields[k]).Some?)
    then
      Some(Catalog(
        genders.value,
        map g | g in categories.fields :: DecodeStrings(categories.fields[g]).value,
        map k | k in styles.fields :: DecodeStyles(styles.fields[k]).value))
    else None
  }

  // ----- Loading -----

  /** `loadData`: `saved` is the stored text (None when nothing is stored) and `parsed` is
      what `JSON.parse` makes of it (None when it throws). The parsed value is kept only
      when its `genders`, `categories` and `styles` are all truthy; anything else falls
      back to a fresh copy of the default catalog. */
  function LoadData(saved: Option<string>, parsed: Option<Json>): (r: Json)
    ensures HasCatalogShape(r)
    ensures r == Encode(DefaultData) || (saved.Some? && saved.value != "" && parsed == Some(r))
    ensures saved.Some? && saved.value != "" && parsed.Some? && HasCatalogShape(parsed.value) ==>
      r == parsed.value
  {
    EncodeHasShape(DefaultData);
    if saved.Some? && saved.value != "" && parsed.Some? && HasCatalogShape(parsed.value) then
      parsed.value
    else
      Encode(DefaultData)
  }

  /** Whatever catalog is written, its stored form passes the shape check. */
  lemma EncodeHasShape(cat: Catalog)
    ensures HasCatalogShape(Encode(cat))
  {
  }

  /** Loading what was saved gives it back: the stored form of any catalog is kept. */
  lemma LoadSaved(cat: Catalog, text: string)
    requires text != ""
    ensures LoadData(Some(text), Some(Encode(cat))) == Encode(cat)
  {
  }

  /** Loading is idempotent: storing a loaded value and loading it again gives it back. */
  lemma LoadIdempotent(saved: Option<string>, parsed: Option<Json>, text: string)
    requires text != ""
    ensures LoadData(Some(text), Some(LoadData(saved, parsed))) == LoadData(saved, parsed)
  {
  }

  /** Nothing stored, or unreadable text, loads the default catalog, which is valid. */
  lemma LoadFallsBackToDefault(saved: Option<string>, parsed: Option<Json>)
    requires saved.None? || saved.value == "" || parsed.None?
    ensures Decode(LoadData(saved, parsed)) == Some(DefaultData)
  {
    DecodeEncode(DefaultData);
  }

  /** The default catalog satisfies the catalog invariant. */
  lemma DefaultDataValid()
    ensures Valid(DefaultData)
  {
  }

  /** The shape check only looks at truthiness: a value whose `genders` is the number 1 is
      kept by the load although it is no catalog. */
  lemma ShapeCheckIsShallow(text: string)
    requires text != ""
    ensures var j := JObject(map["genders" := JNumber(1), "categories" := JObject(map[]), "styles" := JObject(map[])]);
      LoadData(Some(text), Some(j)) == j && Decode(j).None?
  {
  }

  lemma DecodeEncodeStrings(xs: seq<string>)
    ensures DecodeStrings(EncodeStrings(xs)) == Some(xs)
  {
    var d := DecodeStrings(EncodeStrings(xs));
    assert d.Some?;
    assert forall i :: 0 <= i < |xs| ==> d.value[i] == xs[i];
    assert d.value == xs;
  }

  lemma DecodeEncodeStyles(list: seq<Style>)
    ensures DecodeStyles(EncodeStyles(list)) == Some(list)
  {
    var j := EncodeStyles(list);
    forall i | 0 <= i < |list|
      ensures DecodeStyle(j.items[i]) == Some(list[i])
    {
      assert j.items[i] == EncodeStyle(list[i]);
    }
    var d := DecodeStyles(j);
    assert d.Some?;
    assert forall i :: 0 <= i < |list| ==> d.value[i] == list[i];
    assert d.value == list;
  }

  /** The stored form loses nothing: decoding what `saveData` writes gives the catalog back. */
  lemma DecodeEncode(cat: Catalog)
    ensures Decode(Encode(cat)) == Some(cat)
  {
    var j := Encode(cat);
    var categories := Field(j, "categories").GetOr(JNull);
    var styles := Field(j, "styles").GetOr(JNull);
    forall g | g in categories.fields
      ensures DecodeStrings(categories.fields[g]) == Some(cat.categories[g])
    {
      DecodeEncodeStrings(cat.categories[g]);
    }
    forall k | k in styles.fields
      ensures DecodeStyles(styles.fields[k]) == Some(cat.styles[k])
    {
      DecodeEncodeStyles(cat.styles[k]);
    }
    DecodeEncodeStrings(cat.genders);
    var d := Decode(j).value;
    assert d.categories == cat.categories;
    assert d.styles == cat.styles;
  }
}
